=== FILE: README.md ===
# A Dafny model of the Sparkify data-lake ETL job

`etl.py` reads two JSON datasets. The song dataset has one record per song with its artist. The log dataset has one record per user action. The job writes five tables: songs, artists, users, time and the songplays fact table. Its transformation logic is a NextSong filter, four `SELECT DISTINCT … WHERE key IS NOT NULL` projections, a timestamp derivation and one inner join. This project models that logic as pure functions over sequences of rows, and proves what each table holds.

Modules, one per component:

- `Records` (records.dfy): the input records and output rows. A column that SQL may leave NULL is an `Option`.
- `Relational` (relational.dfy): `WHERE`, projection, `DISTINCT`, and `SELECT DISTINCT f(x) … WHERE keep(x)` over row sequences.
- `Calendar` (calendar.dfy): the proleptic Gregorian calendar. The day count of a year's first day is the POSIX formula (POSIX.1-2017, Base Definitions, section 4.16), read with floor division. Week numbers are ISO 8601 weeks (ISO 8601:2004, definition 2.2.10 and section 4.1.4).
- `Timestamps` (timestamps.dfy): epoch milliseconds to epoch seconds, and epoch seconds to and from broken-down UTC time.
- `SongData` (song_data.dfy): `process_song_data`, giving the songs and artists tables.
- `LogData` (log_data.dfy): `process_log_data`, giving the NextSong filter, the users and time tables, and the songplays join.

What the SQL fixes, and the model follows:

- `SELECT DISTINCT` compares whole rows (etl.py:43, etl.py:57, etl.py:92). The songs, artists and users tables have no repeated rows. A key such as user_id may still occur twice when another column differs, for example a user whose level changed.
- `JOIN` is an inner join (etl.py:148). Every joining (event, song record) pair gives one row. Events with no match give none.
- Comparisons follow SQL's three-valued logic (etl.py:85, etl.py:149). A row is kept only when its condition is TRUE, so a NULL page, artist, song or title never matches. The model's `Records.SqlEquals` and `Records.SqlAnd` give that logic.

Decisions the source leaves open, fixed here:

- Time zone. Timestamps are read in UTC. Spark reads them in the session time zone, which the job does not set.
- The weekday column is Spark's `dayofweek`: 1 = Sunday … 7 = Saturday. The week column is Spark's `weekofyear`, which is the ISO 8601 week.
- songplay_id is the row's position, which is unique. The source's id generator promises uniqueness only.

One departure from the source is deliberate: in Spark SQL `ts/1000` is a floating-point division, so `to_timestamp(ts/1000)` (etl.py:124, etl.py:138-140) keeps the milliseconds. The model truncates start_time to whole epoch seconds instead; the "Floating point" and `Timestamps.MillisToSeconds` lines under "## Left out" say what that leaves out.

The SQL text has errors that would stop it from running. The model follows what each query evidently means, and a comment sits at each place:

- `DISINCT` (etl.py:43) and `DISTINT` (etl.py:116) are read as DISTINCT.
- The missing comma at etl.py:59 is supplied.
- The trailing commas before FROM (etl.py:97, etl.py:146) are dropped.
- `daysofmonth` (etl.py:119) is read as dayofmonth.
- `start_tiime_sub` (etl.py:120) and `start_time_sub` (etl.py:117-122) are read as the inner query's `start_time` (etl.py:124).
- The `time`/`timeSt` alias mismatch (etl.py:124-126) is read as one table.
- `year(...) as weekday` (etl.py:122) becomes a `year` column, which the partitioning at etl.py:130 needs, plus a separate day-of-week `weekday` column.
- `monotonically_increase_id` (etl.py:137) is read as monotonically_increasing_id.
- The join predicate `LT.song and ST.title` (etl.py:149) is read as `LT.song = ST.title`.

Properties one might expect of such a schema that the code does not give, and what the model proves instead:

- A dimension table is usually keyed by its id column. The code's DISTINCT removes only identical rows, so the model proves row-distinctness and shows that keys can repeat.
- One might expect every songplays row to carry a song_id. The code never filters song_id on the join side, so that is not claimed.
- One might expect at most one songplays row per NextSong event. Under the code's bag join that holds when no two song records share an (artist_name, title) key; `LogData.SongplaysAtMostOnePerEvent` proves it under that condition. `LogData.JoinPairsCount` gives the exact multiplicities otherwise.
- The timestamp 1541990258796 ms is 2018-11-12 02:37:38 UTC by the POSIX arithmetic: hour 2, a Monday in ISO week 46. `LogData.KnownTimestamp` proves the whole time-table row.

## Model

| member | source | states |
|---|---|---|
| `LogData.IsNextSongIsSqlEquality` | etl.py:85 | the NextSong test holds exactly when SQL's three-valued `page = 'NextSong'` is TRUE, so a NULL page (UNKNOWN) is dropped like any other page |
| `LogData.NextSongEvents` | etl.py:85 | the filtered view holds exactly the events whose page is "NextSong"; a NULL page is not kept |
| `LogData.NonNextSongIgnored` | etl.py:85-88 | inserting an event whose page is not NextSong anywhere in the input leaves the users, time and songplays tables unchanged |
| `LogData.UsersFromNextSongOnly` | etl.py:91-100 | every users row is the projection of some input event whose page is NextSong and whose userId is not NULL |
| `LogData.TimeFromNextSongOnly` | etl.py:115-127 | every time row's start_time is ts div 1000 of some input NextSong event with non-NULL ts |
| `LogData.SongplaysFromNextSongOnly` | etl.py:136-151 | every songplays row comes from a NextSong event and a song record that satisfy the join condition |
| `Relational.Filter` | etl.py:85 | a WHERE keeps exactly the rows satisfying the predicate, and never more rows than the input |
| `Relational.FilterConcat` | etl.py:85 | a filter distributes over concatenation of its input |
| `Relational.Distinct` | etl.py:57 | DISTINCT yields a table with no repeated row holding exactly the input's rows |
| `Relational.DistinctOfDistinctRows` | etl.py:57 | DISTINCT changes nothing on a table without repeated rows, so it is idempotent |
| `Relational.SelectDistinct` | etl.py:42-50 | SELECT DISTINCT f(x) WHERE keep(x) has no repeated row, and holds f(x) for every kept x and nothing else |
| `SongData.SongsTable` | etl.py:42-50 | no repeated rows; every row has a non-NULL song_id and is the (song_id, title, artist_id, year, duration) projection of some song record; every song record with a song_id has its projection in the table |
| `SongData.SongsKeepRowsSharingKey` | etl.py:43 | two song records with the same song_id and different projections give two rows with that song_id: DISTINCT is not key deduplication |
| `SongData.SongsHaveArtists` | etl.py:42-63 | every non-NULL artist_id of the songs table is the artist_id of an artists row |
| `SongData.ProcessSongData` | etl.py:24-66 | both tables process_song_data writes have no repeated row, and the songs table's artist_ids are found in the artists table |
| `SongData.ArtistsTable` | etl.py:56-63 | no repeated rows; every row has a non-NULL artist_id and is the (artist_id, artist_name, artist_location, artist_longitude) projection of some song record; every record with an artist_id has its projection in the table |
| `LogData.UsersTable` | etl.py:91-100 | no repeated rows; every row has a non-NULL user_id and is the (userId, firstName, lastName, gender, level) projection of some NextSong event; every such event with a userId has its projection in the table |
| `LogData.UsersKeepRowsSharingKey` | etl.py:92-99 | a user seen with two levels keeps one row per level, so user_id is not a key |
| `Timestamps.MillisToSeconds` | etl.py:124 | epoch milliseconds become the whole second that contains them: s*1000 <= ms < s*1000 + 1000 |
| `Timestamps.SecondsSinceEpochByDays` | etl.py:124 | the POSIX seconds-since-the-epoch formula is the day number of the date times 86400 plus the time of day |
| `Timestamps.UtcFromSeconds` | etl.py:124 | the UTC broken-down time of an instant is a valid date and time whose POSIX seconds-since-the-epoch equal the instant |
| `Timestamps.UtcFromSecondsInverse` | etl.py:124 | every valid broken-down UTC time is recovered from its seconds since the epoch |
| `Timestamps.SecondsSinceEpochInjective` | etl.py:124 | distinct valid broken-down times are distinct instants |
| `Timestamps.DayOfWeek` | etl.py:122 | the weekday is in 1..7; it is 1 exactly on ISO day 7, Sunday, and ISO day d + 1 on ISO days 1..6, so Monday is 2 and Saturday 7 |
| `Timestamps.DayOfWeekNext` | etl.py:122 | the weekday advances by one each day, with Sunday 1 following Saturday 7 |
| `Calendar.DaysBeforeYearStep` | etl.py:122 | the POSIX day count of January 1st advances by 366 days after a Gregorian leap year and 365 days after any other year |
| `Calendar.DaysBeforeYearMonotone` | etl.py:122 | later years start at least 365 days per year later |
| `Calendar.YearOfDayUnique` | etl.py:122 | every day lies in exactly one year |
| `Calendar.CivilFromDays` | etl.py:119-122 | the date of a day number is a valid date, maps back to that day number, and lies inside its year |
| `Calendar.DaysFromCivilInjective` | etl.py:119-122 | distinct valid dates have distinct day numbers |
| `Calendar.CivilFromDaysInverse` | etl.py:119-122 | every valid date is recovered from its day number |
| `Calendar.IsoDayOfWeekNext` | etl.py:120 | the ISO day of the week advances by one each day, with Monday following Sunday |
| `Calendar.IsoWeek` | etl.py:120 | the ISO week number is in 1..53 |
| `Calendar.IsoWeekByThursday` | etl.py:120 | a day's ISO week number is the 0-based ordinal of its week's Thursday, divided by 7, plus one |
| `Calendar.IsoWeekSameWeek` | etl.py:120 | all days of one Monday-to-Sunday week have the same week number |
| `Calendar.January4InWeekOne` | etl.py:120 | January 4th is always in week 1 |
| `LogData.TimeRowOf` | etl.py:117-122 | start_time is kept; hour in 0..23, day in 1..31, month in 1..12, week in 1..53, weekday in 1..7; (year, month, day) is a valid date, and the instant lies within the row's hour of that UTC date; week and weekday are those of that date |
| `LogData.StartTimes` | etl.py:124-126 | the inner query yields exactly the values ts div 1000 of the events whose ts is not NULL |
| `LogData.TimeTable` | etl.py:115-127 | no repeated rows; every row equals the derivation from its own start_time; the start_times are exactly ts div 1000 over events with non-NULL ts; no two rows share a start_time |
| `LogData.TimeTableSound` | etl.py:115-127 | every time row is derived from its own start_time, which comes from some event |
| `LogData.TimeTableComplete` | etl.py:115-127 | every event with non-NULL ts has its derived row in the time table |
| `LogData.TimeTableKeyed` | etl.py:116 | distinct rows derived from their start_time cannot share a start_time |
| `LogData.JoinConditionIsSqlConjunction` | etl.py:149 | the join condition holds exactly when SQL's three-valued `LT.artist = ST.artist_name AND LT.song = ST.title` is TRUE, so a NULL on either side, even NULL against NULL, never joins |
| `LogData.MatchesOf` | etl.py:147-149 | the song records joined with one event are exactly those satisfying the join condition, each as often as the catalog holds it, and there are none when no record matches |
| `LogData.JoinPairs` | etl.py:147-149 | the join yields exactly the (event, song record) pairs with equal non-NULL artist/artist_name and song/title |
| `LogData.JoinPairsCount` | etl.py:147-149 | a joining pair (e, c) occurs as many times as e occurs among the events times as many times as c occurs among the song records, and a non-joining pair never, as in a SQL inner join over bags |
| `LogData.JoinPairsConcat` | etl.py:147-149 | the join distributes over concatenation of the event side |
| `LogData.NumberPairs` | etl.py:137 | one row per joining pair, built from that pair, and no two rows share a songplay_id |
| `LogData.SongplaysTable` | etl.py:136-151 | one row per joining pair; songplay_ids pairwise distinct; every row is built from an event and a song record that satisfy the join condition, and every such pair has a row. A row built from (e, c) takes song_id and artist_id from the song record and user_id, level, session_id and user_agent from the event, and its start_time, month and year are NULL exactly when the event's ts is, and otherwise those of the time-table derivation of ts |
| `LogData.SongplaysSound` | etl.py:136-151 | every songplays row is built from a joining event and song record |
| `LogData.SongplaysComplete` | etl.py:136-151 | every joining event and song record give a songplays row |
| `LogData.UnmatchedEventYieldsNoRow` | etl.py:147-149 | an event that matches no song record, including one with a NULL artist or song, contributes no songplays row |
| `LogData.MatchesOfAtMostOne` | etl.py:148-149 | when no two song records share a join key, an event joins with at most one record |
| `LogData.SongplaysAtMostOnePerEvent` | etl.py:147-149 | when no two song records share a join key, songplays has at most one row per NextSong event |
| `LogData.SongplaysHaveUsers` | etl.py:141 | the user_id of every songplays row with a user_id is the user_id of a users row |
| `LogData.ProcessLogData` | etl.py:69-154 | of the tables process_log_data writes, every songplays user_id is found in the users table, and every songplays start_time with its month and year in the time table |
| `LogData.SongplaysAgreeWithTimeTable` | etl.py:138-140 | the start_time, month and year of each songplays row with a ts match a row of the time table |
| `LogData.KnownTimestampCivil` | etl.py:124 | ts = 1541990258796 is 2018-11-12 02:37:38 UTC |
| `LogData.KnownDayWeek` | etl.py:120-122 | 2018-11-12 is in ISO week 46 and is a Monday |
| `LogData.KnownTimestamp` | etl.py:117-124 | the time row of ts = 1541990258796 is hour 2, day 12, week 46, month 11, year 2018, weekday 2 (Monday) |
| `LogData.JoinPicksMatchingTitle` | etl.py:149 | of two song records by the same artist, an event joins only the one whose title equals its song |

## Left out

- Configuration and credential loading into environment variables (etl.py:9-13): I/O.
- Spark session construction (etl.py:16-21), `main` and its hard-coded S3 paths (etl.py:157-167): plumbing.
- The JSON reads and their glob paths (etl.py:32-36, etl.py:79-82): I/O. The model takes the records as sequences.
- Parquet writes with `mode('overwrite')` and `partitionBy` (etl.py:53, 66, 103, 130, 154): storage side effects. Songs are partitioned by (year, artist_id); time and songplays by (year, month).
- The parquet read into `songplays_df` (etl.py:133): its result is unused, and it reads a table the job has not yet written.
- The `timestamp` and `datetime` columns (etl.py:106-112): they use the host time zone and float division. The SQL cannot see them either, because the view was registered at etl.py:88, before they were added.
- Spark's data-parallel execution and the row order of its results. The model's row order is its own: the contracts on tables say which rows a table holds and how often. The helpers `Relational.Project` and `LogData.NumberPairs` are stated by position, and songplay_id is a row's position.
- Floating point: duration and artist_longitude are real numbers compared exactly. The double division `ts/1000` is modelled as exact integer floor division.
- Timestamps.MillisToSeconds: start_time is truncated to whole seconds. `to_timestamp(ts/1000)` keeps the milliseconds. So the time table's deduplication is by second, and events in the same whole second share one row.
- LogData.SongplaysTable: songplay_id is the row's position. `monotonically_increasing_id` gives unique but not consecutive ids. Only uniqueness is claimed.

=== FILE: calendar.dfy ===
/**
 * The proleptic Gregorian calendar, counted in whole days from the POSIX
 * epoch 1970-01-01 (day 0). The day count of a year's first day follows the
 * "Seconds Since the Epoch" formula of POSIX.1-2017, Base Definitions,
 * section 4.16, read with floor division so that it also holds before 1970.
 * Weeks follow ISO 8601:2004 (definition 2.2.10 and section 4.1.4): Monday is
 * the first day of a week, and a week belongs to the year that holds its
 * Thursday.
 */
module Calendar {

  datatype Date = Date(year: int, month: int, day: int)

  predicate IsLeapYear(y: int) {
    y % 4 == 0 && (y % 100 != 0 || y % 400 == 0)
  }

  function DaysInYear(y: int): int {
    if IsLeapYear(y) then 366 else 365
  }

  function DaysInMonth(y: int, m: int): int
    requires 1 <= m <= 12
  {
    if m == 2 then (if IsLeapYear(y) then 29 else 28)
    else if m == 4 || m == 6 || m == 9 || m == 11 then 30
    else 31
  }

  /** Number of days of year y that come before the first day of month m;
      m == 13 stands for the first day of the following year. */
  function DaysBeforeMonth(y: int, m: int): int
    requires 1 <= m <= 13
  {
    var leapDay := if IsLeapYear(y) && m > 2 then 1 else 0;
    [0, 31, 59, 90, 120, 151, 181, 212, 243, 273, 304, 334, 365][m - 1] + leapDay
  }

  /** Day number of January 1st of year y: the day part of the POSIX formula,
      365*(tm_year-70) + (tm_year-69)/4 - (tm_year-1)/100 + (tm_year+299)/400
      with tm_year = y - 1900. */
  function DaysBeforeYear(y: int): int {
    365 * (y - 1970) + (y - 1969) / 4 - (y - 1901) / 100 + (y - 1601) / 400
  }

  predicate ValidDate(d: Date) {
    1 <= d.month <= 12 && 1 <= d.day <= DaysInMonth(d.year, d.month)
  }

  /** Day number of a calendar date; the reference definition that
      CivilFromDays inverts. */
  function DaysFromCivil(d: Date): int
    requires 1 <= d.month <= 12
  {
    DaysBeforeYear(d.year) + DaysBeforeMonth(d.year, d.month) + d.day - 1
  }

  lemma DaysBeforeMonthStep(y: int, m: int)
    requires 1 <= m <= 12
    ensures DaysBeforeMonth(y, m + 1) == DaysBeforeMonth(y, m) + DaysInMonth(y, m)
    ensures 0 <= DaysBeforeMonth(y, m) && DaysBeforeMonth(y, m + 1) <= DaysBeforeMonth(y, 13)
    ensures DaysBeforeMonth(y, 1) == 0 && DaysBeforeMonth(y, 13) == DaysInYear(y)
  {
  }

  /** A year has exactly DaysInYear(y) days. */
  lemma DaysBeforeYearStep(y: int)
    ensures DaysBeforeYear(y + 1) == DaysBeforeYear(y) + DaysInYear(y)
  {
    var a := MultipleCountStep4(y);
    var b := MultipleCountStep100(y);
    var c := MultipleCountStep400(y);
    LeapDivisibility(y);
    assert DaysBeforeYear(y + 1) - DaysBeforeYear(y) == 365 + a - b + c;
  }

  /** y % 400 == 0 implies y % 100 == 0, which implies y % 4 == 0. */
  lemma LeapDivisibility(y: int)
    ensures y % 400 == 0 ==> y % 100 == 0
    ensures y % 100 == 0 ==> y % 4 == 0
  {
    if y % 400 == 0 {
      MultipleRemainder(y, 4 * (y / 400), 100);
    }
    if y % 100 == 0 {
      MultipleRemainder(y, 25 * (y / 100), 4);
    }
  }

  /** A multiple of n leaves no remainder. */
  lemma MultipleRemainder(y: int, k: int, n: int)
    requires 0 < n && y == n * k
    ensures y % n == 0
  {
    var q, r := y / n, y % n;
    assert n * (k - q) == r;
    ProductSign(n, k - q);
  }

  lemma ProductSign(n: int, d: int)
    requires 0 < n
    ensures d >= 1 ==> n * d >= n
    ensures d <= -1 ==> n * d <= -n
  {
    if d >= 1 {
      assert n * d == n + n * (d - 1);
    } else if d <= -1 {
      assert n * d == -n + n * (d + 1);
    }
  }

  // The year-count terms of DaysBeforeYear grow by one exactly in the years
  // divisible by the divisor. There is one lemma per divisor of the formula:
  // with a literal divisor the division facts stay linear arithmetic, which
  // the solver settles quickly, while a divisor passed as a parameter makes
  // them non-linear.

  lemma MultipleCountStep4(y: int) returns (a: int)
    ensures a == (y - 1968) / 4 - (y - 1969) / 4
    ensures a == if y % 4 == 0 then 1 else 0
  {
    FloorStep4(y - 1969);
    assert y - 1968 == y + 4 * (-492);
    a := (y - 1968) / 4 - (y - 1969) / 4;
  }

  lemma MultipleCountStep100(y: int) returns (b: int)
    ensures b == (y - 1900) / 100 - (y - 1901) / 100
    ensures b == if y % 100 == 0 then 1 else 0
  {
    FloorStep100(y - 1901);
    assert y - 1900 == y + 100 * (-19);
    b := (y - 1900) / 100 - (y - 1901) / 100;
  }

  lemma MultipleCountStep400(y: int) returns (c: int)
    ensures c == (y - 1600) / 400 - (y - 1601) / 400
    ensures c == if y % 400 == 0 then 1 else 0
  {
    FloorStep400(y - 1601);
    assert y - 1600 == y + 400 * (-4);
    c := (y - 1600) / 400 - (y - 1601) / 400;
  }

  // Floor division gains one exactly when the next numerator is a multiple
  // of the divisor; one lemma per literal divisor, as above.

  lemma FloorStep4(a: int)
    ensures (a + 1) / 4 == a / 4 + (if (a + 1) % 4 == 0 then 1 else 0)
  {
    var q, r := a / 4, a % 4;
    assert a == 4 * q + r;
    if r == 3 { assert a + 1 == 4 * (q + 1); } else { assert a + 1 == 4 * q + (r + 1); }
  }

  lemma FloorStep100(a: int)
    ensures (a + 1) / 100 == a / 100 + (if (a + 1) % 100 == 0 then 1 else 0)
  {
    var q, r := a / 100, a % 100;
    assert a == 100 * q + r;
    if r == 99 { assert a + 1 == 100 * (q + 1); } else { assert a + 1 == 100 * q + (r + 1); }
  }

  lemma FloorStep400(a: int)
    ensures (a + 1) / 400 == a / 400 + (if (a + 1) % 400 == 0 then 1 else 0)
  {
    var q, r := a / 400, a % 400;
    assert a == 400 * q + r;
    if r == 399 { assert a + 1 == 400 * (q + 1); } else { assert a + 1 == 400 * q + (r + 1); }
  }

  /** Later years start later: at least 365 days per year in between. */
  lemma {:induction false} DaysBeforeYearMonotone(a: int, b: int)
    requires a <= b
    ensures DaysBeforeYear(a) + 365 * (b - a) <= DaysBeforeYear(b)
    decreases b - a
  {
    if a < b {
      DaysBeforeYearMonotone(a, b - 1);
      DaysBeforeYearStep(b - 1);
    }
  }

  /** The day count of a year's start stays within a few days of the mean
      Gregorian year of 146097/400 days. */
  lemma DaysBeforeYearNearMean(y: int)
    ensures 146097 * (y - 1970) - 506 <= 400 * DaysBeforeYear(y) <= 146097 * (y - 1970) + 589
  {
  }

  /** Every day lies in exactly one year. */
  lemma YearOfDayUnique(z: int, y1: int, y2: int)
    requires DaysBeforeYear(y1) <= z < DaysBeforeYear(y1 + 1)
    requires DaysBeforeYear(y2) <= z < DaysBeforeYear(y2 + 1)
    ensures y1 == y2
  {
    if y1 < y2 {
      DaysBeforeYearMonotone(y1 + 1, y2);
    } else if y2 < y1 {
      DaysBeforeYearMonotone(y2 + 1, y1);
    }
  }

  /** The year that holds day z. */
  function YearOfDay(z: int): (y: int)
    ensures DaysBeforeYear(y) <= z < DaysBeforeYear(y + 1)
  {
    var estimate := 1970 + (400 * z) / 146097;
    DaysBeforeYearNearMean(estimate - 1);
    DaysBeforeYearNearMean(estimate + 2);
    DaysBeforeYearStep(estimate - 1);
    DaysBeforeYearStep(estimate);
    DaysBeforeYearStep(estimate + 1);
    if z < DaysBeforeYear(estimate) then estimate - 1
    else if z < DaysBeforeYear(estimate + 1) then estimate
    else estimate + 1
  }

  /** The month of year y that holds day-of-year doy (0-based), searching
      from month m onwards. */
  function MonthOfDay(y: int, doy: int, m: int): (r: int)
    requires 1 <= m <= 12
    requires DaysBeforeMonth(y, m) <= doy < DaysInYear(y)
    ensures m <= r <= 12
    ensures DaysBeforeMonth(y, r) <= doy < DaysBeforeMonth(y, r + 1)
    decreases 12 - m
  {
    DaysBeforeMonthStep(y, m);
    if m == 12 || doy < DaysBeforeMonth(y, m + 1) then m
    else MonthOfDay(y, doy, m + 1)
  }

  /** The calendar date of day number z. */
  function CivilFromDays(z: int): (d: Date)
    ensures ValidDate(d)
    ensures DaysFromCivil(d) == z
    ensures DaysBeforeYear(d.year) <= z < DaysBeforeYear(d.year + 1)
  {
    var y := YearOfDay(z);
    var doy := z - DaysBeforeYear(y);
    DaysBeforeYearStep(y);
    DaysBeforeMonthStep(y, 1);
    var m := MonthOfDay(y, doy, 1);
    DaysBeforeMonthStep(y, m);
    Date(y, m, doy - DaysBeforeMonth(y, m) + 1)
  }

  /** A valid date lies inside its own year. */
  lemma DateWithinYear(d: Date)
    requires ValidDate(d)
    ensures DaysBeforeYear(d.year) <= DaysFromCivil(d) < DaysBeforeYear(d.year + 1)
  {
    DaysBeforeMonthStep(d.year, d.month);
    DaysBeforeYearStep(d.year);
  }

  /** Monotonicity of DaysBeforeMonth in the month. */
  lemma {:induction false} DaysBeforeMonthMonotone(y: int, m1: int, m2: int)
    requires 1 <= m1 <= m2 <= 13
    ensures DaysBeforeMonth(y, m1) + 28 * (m2 - m1) <= DaysBeforeMonth(y, m2)
    decreases m2 - m1
  {
    if m1 < m2 {
      DaysBeforeMonthMonotone(y, m1, m2 - 1);
      DaysBeforeMonthStep(y, m2 - 1);
    }
  }

  /** Distinct valid dates have distinct day numbers. */
  lemma DaysFromCivilInjective(a: Date, b: Date)
    requires ValidDate(a) && ValidDate(b)
    requires DaysFromCivil(a) == DaysFromCivil(b)
    ensures a == b
  {
    DateWithinYear(a);
    DateWithinYear(b);
    YearOfDayUnique(DaysFromCivil(a), a.year, b.year);
    var y := a.year;
    DaysBeforeMonthStep(y, a.month);
    DaysBeforeMonthStep(y, b.month);
    if a.month < b.month {
      DaysBeforeMonthMonotone(y, a.month + 1, b.month);
    } else if b.month < a.month {
      DaysBeforeMonthMonotone(y, b.month + 1, a.month);
    }
  }

  /** CivilFromDays recovers every valid date from its day number. */
  lemma CivilFromDaysInverse(d: Date)
    requires ValidDate(d)
    ensures CivilFromDays(DaysFromCivil(d)) == d
  {
    DaysFromCivilInjective(CivilFromDays(DaysFromCivil(d)), d);
  }

  /** ISO 8601 day of the week of day number z: 1 = Monday .. 7 = Sunday.
      Day 0, 1970-01-01, was a Thursday. */
  function IsoDayOfWeek(z: int): (w: int)
    ensures 1 <= w <= 7
  {
    (z + 3) % 7 + 1
  }

  /** ISO 8601 week number of day z: the Thursday of z's Monday-to-Sunday
      week decides the year, and weeks are counted from that year's first
      Thursday. */
  function IsoWeek(z: int): (w: int)
    ensures 1 <= w <= 53
  {
    WeekOfThursday(ThursdayOf(z))
  }

  /** The Thursday of the Monday-to-Sunday week of day z. */
  function ThursdayOf(z: int): (t: int)
    ensures z - 3 <= t <= z + 3
  {
    z - IsoDayOfWeek(z) + 4
  }

  /** The week number of the week whose Thursday is day t. */
  function WeekOfThursday(t: int): (w: int)
    ensures 1 <= w <= 53
  {
    var date := CivilFromDays(t);
    DaysBeforeYearStep(date.year);
    (t - DaysBeforeYear(date.year)) / 7 + 1
  }

  /** The week number of day z is read off the date of its week's Thursday. */
  lemma IsoWeekByThursday(z: int, thursday: Date)
    requires ValidDate(thursday) && DaysFromCivil(thursday) == ThursdayOf(z)
    ensures IsoWeek(z) == (DaysFromCivil(thursday) - DaysBeforeYear(thursday.year)) / 7 + 1
  {
    CivilFromDaysInverse(thursday);
  }

  /** The next day follows in the weekly cycle. */
  lemma IsoDayOfWeekNext(z: int)
    ensures IsoDayOfWeek(z + 1) == IsoDayOfWeek(z) % 7 + 1
  {
  }

  /** Within one Monday-to-Sunday week the day of the week grows with the day. */
  lemma IsoDayOfWeekShift(z: int, k: int)
    requires 0 <= k && IsoDayOfWeek(z) + k <= 7
    ensures IsoDayOfWeek(z + k) == IsoDayOfWeek(z) + k
    ensures ThursdayOf(z + k) == ThursdayOf(z)
  {
    var q, r := (z + 3) / 7, (z + 3) % 7;
    assert z + 3 == 7 * q + r;
    assert z + k + 3 == 7 * q + (r + k) && r + k < 7;
  }

  /** Days of one Monday-to-Sunday week share their week number. */
  lemma IsoWeekSameWeek(z: int, k: int)
    requires 0 <= k && IsoDayOfWeek(z) + k <= 7
    ensures IsoWeek(z + k) == IsoWeek(z)
  {
    IsoDayOfWeekShift(z, k);
  }

  /** January 4th is always in week 1 (ISO 8601:2004, 2.2.10). */
  lemma January4InWeekOne(y: int)
    ensures IsoWeek(DaysFromCivil(Date(y, 1, 4))) == 1
  {
    var z := DaysFromCivil(Date(y, 1, 4));
    var thursday := ThursdayOf(z);
    DaysBeforeYearStep(y);
    YearOfDayUnique(thursday, CivilFromDays(thursday).year, y);
  }
}

=== FILE: log_data.dfy ===
/**
 * `process_log_data` (etl.py:69-154): the NextSong filter, the users and
 * time dimension tables, and the songplays fact table joined against the
 * song records. The parquet reads and writes are not modelled.
 */
module LogData {
  import opened Records
  import opened Relational
  import opened Calendar
  import opened Timestamps

  /** The tables process_log_data writes. */
  datatype LogTables = LogTables(users: seq<UserRow>, time: seq<TimeRow>, songplays: seq<SongplayRow>)

  // ---------------------------------------------------------------------
  // The NextSong filter (etl.py:85)

  /** `df.page == 'NextSong'`: SQL equality, under which a NULL page is
      not NextSong, and neither is any other page. */
  predicate IsNextSong(e: EventRecord)
    ensures e.page.None? ==> !IsNextSong(e)
    ensures e.page.Some? && e.page.value != "NextSong" ==> !IsNextSong(e)
    ensures IsNextSong(e) ==> e.page.Some? && e.page.value == "NextSong"
    ensures e.page == Some("NextSong") ==> IsNextSong(e)
  {
    e.page == Some("NextSong")
  }

  /** The filter keeps an event exactly when SQL's `page = 'NextSong'` is
      TRUE; UNKNOWN, from a NULL page, drops it like FALSE. */
  lemma IsNextSongIsSqlEquality(e: EventRecord)
    ensures IsNextSong(e) <==> SqlEquals(e.page, Some("NextSong")) == Some(true)
  {
  }

  /** `df.filter(df.page == 'NextSong')`: the view `logdata_table` every
      later query reads. A NULL page is not equal to "NextSong". */
  function NextSongEvents(events: seq<EventRecord>): (played: seq<EventRecord>)
    ensures forall e :: e in played ==> e.page == Some("NextSong")
    ensures forall e :: e in played <==> e in events && IsNextSong(e)
    ensures |played| <= |events|
  {
    Filter(events, IsNextSong)
  }

  // ---------------------------------------------------------------------
  // The users table (etl.py:91-100)

  /** The select list of the users query. The source text has a comma
      after `users.level as level` right before FROM (etl.py:97); the model
      reads the five columns without it. */
  function UserOf(e: EventRecord): UserRow {
    UserRow(e.userId, e.firstName, e.lastName, e.gender, e.level)
  }

  predicate HasUserId(e: EventRecord) { e.userId.Some? }

  /** `SELECT DISTINCT userId, firstName, lastName, gender, level FROM
      logdata_table WHERE userId IS NOT NULL`. A user seen with two levels
      keeps two rows: DISTINCT compares whole rows. */
  function UsersTable(played: seq<EventRecord>): (users: seq<UserRow>)
    ensures NoDuplicates(users)
    ensures forall row :: row in users ==> row.userId.Some?
    ensures forall row :: row in users ==> exists e :: e in played && e.userId.Some? && UserOf(e) == row
    ensures forall e :: e in played && e.userId.Some? ==> UserOf(e) in users
  {
    SelectDistinct(played, HasUserId, UserOf)
  }

  /** A user whose level changed between two NextSong events keeps one row
      per level: DISTINCT removes only exact duplicates, so user_id is not a
      key of the table. */
  lemma UsersKeepRowsSharingKey(played: seq<EventRecord>, a: EventRecord, b: EventRecord)
    requires a in played && b in played
    requires a.userId.Some? && a.userId == b.userId && a.level != b.level
    ensures exists i, j ::
              0 <= i < j < |UsersTable(played)| &&
              UsersTable(played)[i].userId == UsersTable(played)[j].userId == a.userId
  {
    var users := UsersTable(played);
    var i :| 0 <= i < |users| && users[i] == UserOf(a);
    var j :| 0 <= j < |users| && users[j] == UserOf(b);
    if i < j {
      assert users[i].userId == users[j].userId == a.userId;
    } else {
      assert users[j].userId == users[i].userId == a.userId;
    }
  }

  // ---------------------------------------------------------------------
  // The time table (etl.py:115-127)

  /** The time-table row of an instant given in whole epoch seconds, in UTC.
      The source's select list is read as the query evidently means it:
      `daysofmonth` (etl.py:119) as dayofmonth, `start_tiime_sub`
      (etl.py:120) and `start_time_sub` as the inner query's start_time
      (etl.py:117-124), and `year(...) as weekday` (etl.py:122) as two
      columns, year and a Spark `dayofweek` weekday (1 = Sunday). The week
      is Spark's `weekofyear`, the ISO 8601 week. */
  function TimeRowOf(startTime: int): (row: TimeRow)
    ensures row.startTime == startTime
    ensures 0 <= row.hour <= 23 && 1 <= row.day <= 31 && 1 <= row.month <= 12
    ensures 1 <= row.week <= 53 && 1 <= row.weekday <= 7
    ensures ValidDate(Date(row.year, row.month, row.day))
    ensures var dayStart := DaysFromCivil(Date(row.year, row.month, row.day)) * 86400;
            dayStart + row.hour * 3600 <= startTime < dayStart + row.hour * 3600 + 3600
    ensures row.week == IsoWeek(DaysFromCivil(Date(row.year, row.month, row.day)))
    ensures row.weekday == DayOfWeek(DaysFromCivil(Date(row.year, row.month, row.day)))
  {
    var t := UtcFromSeconds(startTime);
    SecondsSinceEpochByDays(t);
    var days := DaysFromCivil(t.date);
    TimeRow(startTime, t.hour, t.date.day, IsoWeek(days), t.date.month, t.date.year, DayOfWeek(days))
  }

  /** The inner query A: `SELECT to_timestamp(ts/1000) AS start_time FROM
      logdata_table WHERE ts IS NOT NULL`. The source names the table
      `time` but its columns `timeSt` (etl.py:124-126); the model reads both
      as the one table. */
  function StartTimes(played: seq<EventRecord>): (starts: seq<int>)
    ensures |starts| <= |played|
    ensures forall s :: s in starts <==> exists e :: e in played && e.ts.Some? && MillisToSeconds(e.ts.value) == s
  {
    if played == [] then []
    else
      var e := played[0];
      var rest := StartTimes(played[1..]);
      assert forall x :: x in played <==> x == e || x in played[1..];
      match e.ts
      case Some(ms) => [MillisToSeconds(ms)] + rest
      case None => rest
  }

  /** `SELECT DISTINCT <TimeRowOf columns> FROM A`. The source spells the
      keyword DISTINT (etl.py:116); the model applies DISTINCT. */
  function TimeTable(played: seq<EventRecord>): (times: seq<TimeRow>)
    ensures NoDuplicates(times)
    ensures forall row :: row in times ==> row == TimeRowOf(row.startTime)
    ensures forall row :: row in times ==>
              exists e :: e in played && e.ts.Some? && MillisToSeconds(e.ts.value) == row.startTime
    ensures forall e :: e in played && e.ts.Some? ==> TimeRowOf(MillisToSeconds(e.ts.value)) in times
    ensures forall i, j :: 0 <= i < j < |times| ==> times[i].startTime != times[j].startTime
  {
    var times := SelectDistinct(StartTimes(played), (s: int) => true, TimeRowOf);
    TimeTableSound(played, times);
    TimeTableComplete(played, times);
    TimeTableKeyed(times);
    times
  }

  // The facts behind TimeTable's contract, one lemma each.

  lemma TimeTableSound(played: seq<EventRecord>, times: seq<TimeRow>)
    requires times == SelectDistinct(StartTimes(played), (s: int) => true, TimeRowOf)
    ensures forall row :: row in times ==> row == TimeRowOf(row.startTime)
    ensures forall row :: row in times ==>
              exists e :: e in played && e.ts.Some? && MillisToSeconds(e.ts.value) == row.startTime
  {
    var starts := StartTimes(played);
    forall row | row in times
      ensures row == TimeRowOf(row.startTime)
      ensures exists e :: e in played && e.ts.Some? && MillisToSeconds(e.ts.value) == row.startTime
    {
      var s :| s in starts && TimeRowOf(s) == row;
    }
  }

  lemma TimeTableComplete(played: seq<EventRecord>, times: seq<TimeRow>)
    requires times == SelectDistinct(StartTimes(played), (s: int) => true, TimeRowOf)
    ensures forall e :: e in played && e.ts.Some? ==> TimeRowOf(MillisToSeconds(e.ts.value)) in times
  {
    var starts := StartTimes(played);
    forall e | e in played && e.ts.Some?
      ensures TimeRowOf(MillisToSeconds(e.ts.value)) in times
    {
      assert MillisToSeconds(e.ts.value) in starts;
    }
  }

  lemma TimeTableKeyed(times: seq<TimeRow>)
    requires NoDuplicates(times)
    requires forall row :: row in times ==> row == TimeRowOf(row.startTime)
    ensures forall i, j :: 0 <= i < j < |times| ==> times[i].startTime != times[j].startTime
  {
    forall i, j | 0 <= i < j < |times| ensures times[i].startTime != times[j].startTime {
      assert times[i] in times && times[j] in times;
    }
  }

  // ---------------------------------------------------------------------
  // The songplays table (etl.py:136-151)

  /** The join predicate. The source reads `LT.artist = ST.artist_name AND
      LT.song and ST.title` (etl.py:149); the model takes the second
      conjunct as LT.song = ST.title. A NULL on either side equals nothing. */
  predicate JoinCondition(e: EventRecord, c: CatalogRecord)
    ensures e.artist.None? || c.artistName.None? || e.song.None? || c.title.None? ==> !JoinCondition(e, c)
    ensures e.artist.Some? && c.artistName.Some? && e.song.Some? && c.title.Some? ==>
              (JoinCondition(e, c) <==> e.artist.value == c.artistName.value && e.song.value == c.title.value)
  {
    e.artist.Some? && e.artist == c.artistName && e.song.Some? && e.song == c.title
  }

  /** The join keeps a pair exactly when SQL's `LT.artist = ST.artist_name
      AND LT.song = ST.title` is TRUE under three-valued logic; in
      particular two NULLs do not join. */
  lemma JoinConditionIsSqlConjunction(e: EventRecord, c: CatalogRecord)
    ensures JoinCondition(e, c) <==> SqlAnd(SqlEquals(e.artist, c.artistName), SqlEquals(e.song, c.title)) == Some(true)
  {
  }

  /** The song records that join with event e, paired with it: each joining
      record as often as the catalog holds it. */
  function MatchesOf(e: EventRecord, catalog: seq<CatalogRecord>): (pairs: seq<(EventRecord, CatalogRecord)>)
    ensures |pairs| <= |catalog|
    ensures forall p :: p in pairs <==> p.0 == e && p.1 in catalog && JoinCondition(e, p.1)
    ensures forall c :: multiset(pairs)[(e, c)] == if JoinCondition(e, c) then multiset(catalog)[c] else 0
    ensures (forall c :: c in catalog ==> !JoinCondition(e, c)) ==> pairs == []
  {
    if catalog == [] then []
    else
      var rest := MatchesOf(e, catalog[1..]);
      assert forall c :: c in catalog <==> c == catalog[0] || c in catalog[1..];
      assert catalog == [catalog[0]] + catalog[1..];
      if JoinCondition(e, catalog[0]) then [(e, catalog[0])] + rest else rest
  }

  /** `logdata_table LT JOIN songdata_table ST ON <JoinCondition>`: every
      joining pair, as often as the two inputs hold it: the bag product of
      the events and the song records, restricted to the join condition. */
  function JoinPairs(played: seq<EventRecord>, catalog: seq<CatalogRecord>): (pairs: seq<(EventRecord, CatalogRecord)>)
    ensures forall p :: p in pairs <==> p.0 in played && p.1 in catalog && JoinCondition(p.0, p.1)
  {
    if played == [] then []
    else
      var rest := JoinPairs(played[1..], catalog);
      assert forall x :: x in played <==> x == played[0] || x in played[1..];
      MatchesOf(played[0], catalog) + rest
  }

  /** The join's multiplicities: pair (e, c) occurs once for every copy of
      e among the events and every copy of c among the song records when
      they satisfy the join condition, and never otherwise. */
  lemma {:induction false} JoinPairsCount(played: seq<EventRecord>, catalog: seq<CatalogRecord>,
                                          e: EventRecord, c: CatalogRecord)
    ensures multiset(JoinPairs(played, catalog))[(e, c)] ==
              if JoinCondition(e, c) then multiset(played)[e] * multiset(catalog)[c] else 0
  {
    if played != [] {
      JoinPairsCount(played[1..], catalog, e, c);
      var m := MatchesOf(played[0], catalog);
      var rest := JoinPairs(played[1..], catalog);
      assert JoinPairs(played, catalog) == m + rest;
      assert multiset(m + rest)[(e, c)] == multiset(m)[(e, c)] + multiset(rest)[(e, c)];
      CountOfFirst(played, e);
      if e != played[0] {
        assert (e, c) !in m;
      }
      ProductStep(multiset(played[1..])[e], multiset(catalog)[c]);
    }
  }

  lemma ProductStep(a: int, k: int)
    ensures (a + 1) * k == a * k + k
  {
  }

  /** to_timestamp(ts/1000) with its month and year (etl.py:138-140); NULL
      when ts is. */
  function EventTime(e: EventRecord): (t: Option<TimeRow>)
    ensures t.Some? <==> e.ts.Some?
    ensures e.ts.Some? ==> t.value == TimeRowOf(MillisToSeconds(e.ts.value))
  {
    match e.ts
    case Some(ms) => Some(TimeRowOf(MillisToSeconds(ms)))
    case None => None
  }

  /** The select list of the songplays query. The source calls
      `monotonically_increase_id()` (etl.py:137), evidently Spark's
      monotonically_increasing_id, and has a comma right before FROM
      (etl.py:146). The id is the caller's; SongplaysTable gives each row
      its position, which is unique as the source requires. */
  function SongplayOf(id: nat, e: EventRecord, c: CatalogRecord): SongplayRow {
    var t := EventTime(e);
    SongplayRow(id,
      if t.Some? then Some(t.value.startTime) else None,
      if t.Some? then Some(t.value.month) else None,
      if t.Some? then Some(t.value.year) else None,
      e.userId, e.level, c.songId, c.artistId, e.sessionId, e.userAgent)
  }

  /** What a songplays row built from event e and song record c holds:
      the catalog side gives song_id and artist_id, the event side the rest. */
  ghost predicate RowOfPair(row: SongplayRow, e: EventRecord, c: CatalogRecord) {
    && row.songId == c.songId && row.artistId == c.artistId
    && row.userId == e.userId && row.level == e.level
    && row.sessionId == e.sessionId && row.userAgent == e.userAgent
    && (row.startTime.Some? <==> e.ts.Some?)
    && (row.month.Some? <==> e.ts.Some?)
    && (row.year.Some? <==> e.ts.Some?)
    && (e.ts.Some? ==>
          var t := TimeRowOf(MillisToSeconds(e.ts.value));
          row.startTime.value == t.startTime && row.month.value == t.month && row.year.value == t.year)
  }

  /** A songplays row holds what RowOfPair says, whatever its id. */
  lemma SongplayOfPair(id: nat, e: EventRecord, c: CatalogRecord)
    ensures RowOfPair(SongplayOf(id, e, c), e, c)
  {
  }

  /** Numbers the joining pairs: row i is built from pairs[i], and no two
      rows share a songplay_id. */
  function NumberPairs(pairs: seq<(EventRecord, CatalogRecord)>): (plays: seq<SongplayRow>)
    ensures |plays| == |pairs|
    ensures forall i :: 0 <= i < |pairs| ==> plays[i] == SongplayOf(i, pairs[i].0, pairs[i].1)
    ensures forall i, j :: 0 <= i < j < |plays| ==> plays[i].songplayId != plays[j].songplayId
  {
    seq(|pairs|, i requires 0 <= i < |pairs| => SongplayOf(i, pairs[i].0, pairs[i].1))
  }

  /** The songplays fact table: one row per joining pair, numbered. */
  function SongplaysTable(played: seq<EventRecord>, catalog: seq<CatalogRecord>): (plays: seq<SongplayRow>)
    ensures |plays| == |JoinPairs(played, catalog)|
    ensures forall i, j :: 0 <= i < j < |plays| ==> plays[i].songplayId != plays[j].songplayId
    ensures forall row :: row in plays ==>
              exists e, c :: e in played && c in catalog && JoinCondition(e, c) && RowOfPair(row, e, c)
    ensures forall e, c :: e in played && c in catalog && JoinCondition(e, c) ==>
              exists row :: row in plays && RowOfPair(row, e, c)
  {
    var plays := NumberPairs(JoinPairs(played, catalog));
    SongplaysSound(played, catalog, plays);
    SongplaysComplete(played, catalog, plays);
    plays
  }

  lemma SongplaysSound(played: seq<EventRecord>, catalog: seq<CatalogRecord>, plays: seq<SongplayRow>)
    requires plays == NumberPairs(JoinPairs(played, catalog))
    ensures forall row :: row in plays ==>
              exists e, c :: e in played && c in catalog && JoinCondition(e, c) && RowOfPair(row, e, c)
  {
    var pairs := JoinPairs(played, catalog);
    forall row | row in plays
      ensures exists e, c :: e in played && c in catalog && JoinCondition(e, c) && RowOfPair(row, e, c)
    {
      var i :| 0 <= i < |plays| && plays[i] == row;
      assert pairs[i] in pairs;
      SongplayOfPair(i, pairs[i].0, pairs[i].1);
    }
  }

  lemma SongplaysComplete(played: seq<EventRecord>, catalog: seq<CatalogRecord>, plays: seq<SongplayRow>)
    requires plays == NumberPairs(JoinPairs(played, catalog))
    ensures forall e, c :: e in played && c in catalog && JoinCondition(e, c) ==>
              exists row :: row in plays && RowOfPair(row, e, c)
  {
    var pairs := JoinPairs(played, catalog);
    forall e, c | e in played && c in catalog && JoinCondition(e, c)
      ensures exists row :: row in plays && RowOfPair(row, e, c)
    {
      assert (e, c) in pairs;
      var i :| 0 <= i < |pairs| && pairs[i] == (e, c);
      SongplayOfPair(i, e, c);
      assert plays[i] in plays;
    }
  }

  // ---------------------------------------------------------------------
  // The whole of process_log_data

  /** The tables process_log_data writes, all read from the NextSong view.
      The fact table refers to the dimension tables written beside it: a
      songplays row's user_id is a user_id of the users table, and its
      start_time, month and year are those of a time-table row. */
  function ProcessLogData(events: seq<EventRecord>, catalog: seq<CatalogRecord>): (tables: LogTables)
    ensures forall row :: row in tables.songplays && row.userId.Some? ==>
              exists u :: u in tables.users && u.userId == row.userId
    ensures forall row :: row in tables.songplays && row.startTime.Some? ==>
              exists t :: t in tables.time && t.startTime == row.startTime.value &&
                          row.month == Some(t.month) && row.year == Some(t.year)
  {
    var played := NextSongEvents(events);
    SongplaysHaveUsers(played, catalog);
    SongplaysAgreeWithTimeTable(played, catalog);
    LogTables(UsersTable(played), TimeTable(played), SongplaysTable(played, catalog))
  }

  // ---------------------------------------------------------------------
  // Properties of the whole

  /** An event whose page is not NextSong contributes no row to any table:
      removing it leaves all three outputs as they were. */
  lemma NonNextSongIgnored(pre: seq<EventRecord>, e: EventRecord, post: seq<EventRecord>,
                           catalog: seq<CatalogRecord>)
    requires !IsNextSong(e)
    ensures ProcessLogData(pre + [e] + post, catalog) == ProcessLogData(pre + post, catalog)
  {
    FilterConcat(pre + [e], post, IsNextSong);
    FilterConcat(pre, [e], IsNextSong);
    FilterConcat(pre, post, IsNextSong);
    assert Filter([e], IsNextSong) == [];
    assert NextSongEvents(pre + [e] + post) == NextSongEvents(pre + post);
  }

  // Every row of the users, time and songplays tables comes from an event
  // whose page is NextSong.

  lemma UsersFromNextSongOnly(events: seq<EventRecord>)
    ensures forall row :: row in UsersTable(NextSongEvents(events)) ==>
              exists e :: e in events && IsNextSong(e) && e.userId.Some? && UserOf(e) == row
  {
    var played := NextSongEvents(events);
    forall row | row in UsersTable(played)
      ensures exists e :: e in events && IsNextSong(e) && e.userId.Some? && UserOf(e) == row
    {
      var e :| e in played && e.userId.Some? && UserOf(e) == row;
    }
  }

  lemma TimeFromNextSongOnly(events: seq<EventRecord>)
    ensures forall row :: row in TimeTable(NextSongEvents(events)) ==>
              exists e :: e in events && IsNextSong(e) && e.ts.Some? && MillisToSeconds(e.ts.value) == row.startTime
  {
    var played := NextSongEvents(events);
    forall row | row in TimeTable(played)
      ensures exists e :: e in events && IsNextSong(e) && e.ts.Some? && MillisToSeconds(e.ts.value) == row.startTime
    {
      var e :| e in played && e.ts.Some? && MillisToSeconds(e.ts.value) == row.startTime;
    }
  }

  lemma SongplaysFromNextSongOnly(events: seq<EventRecord>, catalog: seq<CatalogRecord>)
    ensures forall row :: row in SongplaysTable(NextSongEvents(events), catalog) ==>
              exists e, c :: e in events && IsNextSong(e) && c in catalog && JoinCondition(e, c) && RowOfPair(row, e, c)
  {
    var played := NextSongEvents(events);
    forall row | row in SongplaysTable(played, catalog)
      ensures exists e, c :: e in events && IsNextSong(e) && c in catalog && JoinCondition(e, c) && RowOfPair(row, e, c)
    {
      var e, c :| e in played && c in catalog && JoinCondition(e, c) && RowOfPair(row, e, c);
    }
  }

  /** The join distributes over concatenation of the event side. */
  lemma {:induction false} JoinPairsConcat(a: seq<EventRecord>, b: seq<EventRecord>, catalog: seq<CatalogRecord>)
    ensures JoinPairs(a + b, catalog) == JoinPairs(a, catalog) + JoinPairs(b, catalog)
  {
    if a == [] {
      assert a + b == b;
    } else {
      assert (a + b)[0] == a[0];
      assert (a + b)[1..] == a[1..] + b;
      JoinPairsConcat(a[1..], b, catalog);
    }
  }

  /** Inner join: an event that matches no song record, in particular one
      with a NULL artist or song, yields no songplays row. */
  lemma UnmatchedEventYieldsNoRow(pre: seq<EventRecord>, e: EventRecord, post: seq<EventRecord>,
                                  catalog: seq<CatalogRecord>)
    requires forall c :: c in catalog ==> !JoinCondition(e, c)
    ensures SongplaysTable(pre + [e] + post, catalog) == SongplaysTable(pre + post, catalog)
  {
    UnmatchedEventJoinsNothing(pre, e, post, catalog);
  }

  lemma UnmatchedEventJoinsNothing(pre: seq<EventRecord>, e: EventRecord, post: seq<EventRecord>,
                                   catalog: seq<CatalogRecord>)
    requires forall c :: c in catalog ==> !JoinCondition(e, c)
    ensures JoinPairs(pre + [e] + post, catalog) == JoinPairs(pre + post, catalog)
  {
    JoinPairsConcat(pre + [e], post, catalog);
    JoinPairsConcat(pre, [e], catalog);
    JoinPairsConcat(pre, post, catalog);
    assert MatchesOf(e, catalog) == [];
    assert JoinPairs([e], catalog) == MatchesOf(e, catalog) + JoinPairs([], catalog);
  }

  /** No two song records that carry a join key share it. */
  ghost predicate UniqueJoinKeys(catalog: seq<CatalogRecord>) {
    forall i, j :: 0 <= i < j < |catalog| && catalog[i].artistName.Some? && catalog[i].title.Some? ==>
      catalog[i].artistName != catalog[j].artistName || catalog[i].title != catalog[j].title
  }

  /** With unique join keys an event matches at most one song record. */
  lemma {:induction false} MatchesOfAtMostOne(e: EventRecord, catalog: seq<CatalogRecord>)
    requires UniqueJoinKeys(catalog)
    ensures |MatchesOf(e, catalog)| <= 1
  {
    if catalog != [] {
      var tail := catalog[1..];
      if JoinCondition(e, catalog[0]) {
        forall c | c in tail ensures !JoinCondition(e, c) {
          var j :| 0 <= j < |tail| && tail[j] == c;
          assert catalog[j + 1] == c;
        }
      } else {
        assert UniqueJoinKeys(tail) by {
          forall i, j | 0 <= i < j < |tail| && tail[i].artistName.Some? && tail[i].title.Some?
            ensures tail[i].artistName != tail[j].artistName || tail[i].title != tail[j].title
          {
            assert tail[i] == catalog[i + 1] && tail[j] == catalog[j + 1];
          }
        }
        MatchesOfAtMostOne(e, tail);
      }
    }
  }

  /** With unique join keys on the song side the inner join yields at most
      one songplays row per NextSong event. */
  lemma {:induction false} SongplaysAtMostOnePerEvent(played: seq<EventRecord>, catalog: seq<CatalogRecord>)
    requires UniqueJoinKeys(catalog)
    ensures |SongplaysTable(played, catalog)| <= |played|
  {
    if played != [] {
      MatchesOfAtMostOne(played[0], catalog);
      SongplaysAtMostOnePerEvent(played[1..], catalog);
    }
  }

  /** start_time, month and year of every songplays row agree with the time
      table's row for the same instant: both come from one conversion. */
  lemma SongplaysAgreeWithTimeTable(played: seq<EventRecord>, catalog: seq<CatalogRecord>)
    ensures forall row :: row in SongplaysTable(played, catalog) && row.startTime.Some? ==>
              exists t :: t in TimeTable(played) && t.startTime == row.startTime.value &&
                          row.month == Some(t.month) && row.year == Some(t.year)
  {
    forall row | row in SongplaysTable(played, catalog) && row.startTime.Some?
      ensures exists t :: t in TimeTable(played) && t.startTime == row.startTime.value &&
                          row.month == Some(t.month) && row.year == Some(t.year)
    {
      RowAgreesWithTimeTable(played, catalog, row);
    }
  }

  /** The user_id of every songplays row is that of a users row: both come
      from the same NextSong event. */
  lemma SongplaysHaveUsers(played: seq<EventRecord>, catalog: seq<CatalogRecord>)
    ensures forall row :: row in SongplaysTable(played, catalog) && row.userId.Some? ==>
              exists u :: u in UsersTable(played) && u.userId == row.userId
  {
    forall row | row in SongplaysTable(played, catalog) && row.userId.Some?
      ensures exists u :: u in UsersTable(played) && u.userId == row.userId
    {
      RowHasUser(played, catalog, row);
    }
  }

  lemma RowHasUser(played: seq<EventRecord>, catalog: seq<CatalogRecord>, row: SongplayRow)
    requires row in SongplaysTable(played, catalog) && row.userId.Some?
    ensures exists u :: u in UsersTable(played) && u.userId == row.userId
  {
    var e, c :| e in played && c in catalog && JoinCondition(e, c) && RowOfPair(row, e, c);
    assert UserOf(e) in UsersTable(played);
  }

  lemma RowAgreesWithTimeTable(played: seq<EventRecord>, catalog: seq<CatalogRecord>, row: SongplayRow)
    requires row in SongplaysTable(played, catalog) && row.startTime.Some?
    ensures exists t :: t in TimeTable(played) && t.startTime == row.startTime.value &&
                        row.month == Some(t.month) && row.year == Some(t.year)
  {
    var e, c :| e in played && c in catalog && JoinCondition(e, c) && RowOfPair(row, e, c);
    var t := TimeRowOf(MillisToSeconds(e.ts.value));
    assert t in TimeTable(played);
  }

  /** The instant 1541990258796 ms is 2018-11-12 02:37:38 UTC. */
  lemma KnownTimestampCivil()
    ensures UtcFromSeconds(MillisToSeconds(1541990258796)) == CivilTime(Date(2018, 11, 12), 2, 37, 38)
  {
    var t := CivilTime(Date(2018, 11, 12), 2, 37, 38);
    assert MillisToSeconds(1541990258796) == 1541990258;
    assert DaysFromCivil(t.date) == 17847;
    SecondsSinceEpochByDays(t);
    assert SecondsSinceEpoch(t) == 1541990258;
    UtcFromSecondsInverse(t);
  }

  /** Day 17847, 2018-11-12, is a Monday in ISO week 46. */
  lemma KnownDayWeek()
    ensures IsoWeek(17847) == 46 && DayOfWeek(17847) == 2
  {
    assert IsoDayOfWeek(17847) == 1;
    WeekOfNovember12th2018(17847);
  }

  // The helpers below take the day number as a parameter pinned by their
  // requires rather than as a literal: the solver unfolds calendar functions
  // applied to literals eagerly, and the whole computation in one lemma is
  // too expensive, so it is done one step per lemma.

  /** The Thursday of the week of 2018-11-12 is 2018-11-15, day 318 of 2018
      counting from 0, so the week is number 46. */
  lemma WeekOfNovember12th2018(z: int)
    requires z == 17847
    ensures IsoWeek(z) == 46
  {
    var thursday := Date(2018, 11, 15);
    ThursdayOfNovember12th2018(z, thursday);
    WeekFromThursday2018(z, thursday);
  }

  lemma ThursdayOfNovember12th2018(z: int, thursday: Date)
    requires z == 17847 && thursday == Date(2018, 11, 15)
    ensures ValidDate(thursday) && DaysFromCivil(thursday) == ThursdayOf(z) == 17850
  {
    assert IsoDayOfWeek(z) == 1;
  }

  lemma WeekFromThursday2018(z: int, thursday: Date)
    requires ValidDate(thursday) && thursday.year == 2018
    requires DaysFromCivil(thursday) == ThursdayOf(z) == 17850
    ensures IsoWeek(z) == 46
  {
    IsoWeekByThursday(z, thursday);
    DaysBefore2018();
    var w := IsoWeek(z);
    assert w == (17850 - 17532) / 7 + 1;
  }

  /** 2018 starts 17532 days after 1970-01-01. */
  lemma DaysBefore2018()
    ensures DaysBeforeYear(2018) == 17532
  {
  }

  /** The time-table row of ts = 1541990258796: hour 2, day 12, week 46,
      month 11, year 2018, weekday 2 (Monday). */
  lemma KnownTimestamp()
    ensures TimeRowOf(MillisToSeconds(1541990258796)) == TimeRow(1541990258, 2, 12, 46, 11, 2018, 2)
  {
    KnownTimestampCivil();
    assert DaysFromCivil(Date(2018, 11, 12)) == 17847;
    KnownDayWeek();
  }

  /** Two song records share the artist but not the title; a NextSong event
      for that artist and the second title joins with the second record
      only. */
  lemma JoinPicksMatchingTitle()
    ensures var first := CatalogRecord(Some("S1"), Some("Alpha"), Some("A1"), Some("Elena"), None, None, Some(2010), None);
      var second := CatalogRecord(Some("S2"), Some("Beta"), Some("A1"), Some("Elena"), None, None, Some(2012), None);
      var play := EventRecord(Some("NextSong"), None, Some("7"), None, None, None, Some("free"),
                              Some(1), None, Some("Elena"), Some("Beta"));
      var plays := SongplaysTable([play], [first, second]);
      |plays| == 1 && plays[0].songId == Some("S2") && plays[0].userId == Some("7")
  {
    var first := CatalogRecord(Some("S1"), Some("Alpha"), Some("A1"), Some("Elena"), None, None, Some(2010), None);
    var second := CatalogRecord(Some("S2"), Some("Beta"), Some("A1"), Some("Elena"), None, None, Some(2012), None);
    var play := EventRecord(Some("NextSong"), None, Some("7"), None, None, None, Some("free"),
                            Some(1), None, Some("Elena"), Some("Beta"));
    assert !JoinCondition(play, first) && JoinCondition(play, second);
    assert [first, second][1..] == [second];
    assert MatchesOf(play, [second]) == [(play, second)];
    assert MatchesOf(play, [first, second]) == [(play, second)];
    assert JoinPairs([play], [first, second]) == [(play, second)];
  }
}

=== FILE: records.dfy ===
/**
 * Row schemas of the job: the two raw inputs read from JSON and the five
 * tables it writes. Every raw column may be NULL, so every raw field is an
 * Option. Column names follow the source's JSON keys and SQL aliases,
 * written in camel case.
 */
module Records {

  /** A SQL value that may be NULL. */
  datatype Option<+T> = None | Some(value: T)

  /** SQL's `=`: UNKNOWN (None) when either side is NULL, otherwise whether
      the two values are equal. */
  function SqlEquals<T(==)>(a: Option<T>, b: Option<T>): (r: Option<bool>)
    ensures r.None? <==> a.None? || b.None?
    ensures r == Some(true) ==> a == b
  {
    if a.None? || b.None? then None else Some(a.value == b.value)
  }

  /** SQL's three-valued `AND`: FALSE when either side is FALSE, TRUE when
      both are TRUE, UNKNOWN otherwise. */
  function SqlAnd(p: Option<bool>, q: Option<bool>): (r: Option<bool>)
    ensures r == Some(true) <==> p == Some(true) && q == Some(true)
    ensures r == Some(false) <==> p == Some(false) || q == Some(false)
  {
    if p == Some(false) || q == Some(false) then Some(false)
    else if p.None? || q.None? then None
    else Some(p.value && q.value)
  }

  /** One record of the song dataset (the JSON song files, the view
      `songdata_table`, etl.py:32-39). Fields the job never reads, such as
      artist_latitude and num_songs, are not modelled. */
  datatype CatalogRecord = CatalogRecord(
    songId: Option<string>,
    title: Option<string>,
    artistId: Option<string>,
    artistName: Option<string>,
    artistLocation: Option<string>,
    artistLongitude: Option<real>,
    year: Option<int>,
    duration: Option<real>)

  /** One record of the log dataset (the JSON log files, the view
      `logdata_table`, etl.py:79-88). ts is in epoch milliseconds. */
  datatype EventRecord = EventRecord(
    page: Option<string>,
    ts: Option<int>,
    userId: Option<string>,
    firstName: Option<string>,
    lastName: Option<string>,
    gender: Option<string>,
    level: Option<string>,
    sessionId: Option<int>,
    userAgent: Option<string>,
    artist: Option<string>,
    song: Option<string>)

  /** Row of the songs table (etl.py:42-50); partitioned by year and
      artist_id at rest. */
  datatype SongRow = SongRow(
    songId: Option<string>,
    title: Option<string>,
    artistId: Option<string>,
    year: Option<int>,
    duration: Option<real>)

  /** Row of the artists table (etl.py:56-63). */
  datatype ArtistRow = ArtistRow(
    artistId: Option<string>,
    artistName: Option<string>,
    artistLocation: Option<string>,
    artistLongitude: Option<real>)

  /** Row of the users table (etl.py:91-100). */
  datatype UserRow = UserRow(
    userId: Option<string>,
    firstName: Option<string>,
    lastName: Option<string>,
    gender: Option<string>,
    level: Option<string>)

  /** Row of the time table (etl.py:115-127); partitioned by year and month
      at rest. startTime is in whole epoch seconds, and every field is
      derived from it, so none can be NULL. weekday counts 1 = Sunday ..
      7 = Saturday. */
  datatype TimeRow = TimeRow(
    startTime: int,
    hour: int,
    day: int,
    week: int,
    month: int,
    year: int,
    weekday: int)

  /** Row of the songplays fact table (etl.py:136-151); partitioned by year
      and month at rest. startTime, month and year are NULL when the event's
      ts is. */
  datatype SongplayRow = SongplayRow(
    songplayId: nat,
    startTime: Option<int>,
    month: Option<int>,
    year: Option<int>,
    userId: Option<string>,
    level: Option<string>,
    songId: Option<string>,
    artistId: Option<string>,
    sessionId: Option<int>,
    userAgent: Option<string>)
}

=== FILE: relational.dfy ===
/**
 * The relational operators the job's SQL is built from, over tables held as
 * sequences of rows: a `WHERE` filter, a projection, `DISTINCT`, and the
 * `SELECT DISTINCT f(x) ... WHERE keep(x)` that combines them. The order of
 * rows in a result is the model's own: the contracts of the table operators
 * say which rows a table holds and how often, while Project, a helper, is
 * stated position by position.
 */
module Relational {

  /** No row occurs twice. */
  ghost predicate NoDuplicates<T>(s: seq<T>) {
    forall i, j :: 0 <= i < j < |s| ==> s[i] != s[j]
  }

  /** `WHERE keep(x)`: the rows of s that satisfy keep, in their order. */
  function Filter<T(!new)>(s: seq<T>, keep: T -> bool): (r: seq<T>)
    ensures |r| <= |s|
    ensures forall x :: x in r <==> x in s && keep(x)
  {
    if s == [] then []
    else
      var rest := Filter(s[1..], keep);
      if keep(s[0]) then [s[0]] + rest else rest
  }

  /** A filter distributes over concatenation. */
  lemma {:induction false} FilterConcat<T(!new)>(a: seq<T>, b: seq<T>, keep: T -> bool)
    ensures Filter(a + b, keep) == Filter(a, keep) + Filter(b, keep)
  {
    if a == [] {
      assert a + b == b;
    } else {
      assert (a + b)[1..] == a[1..] + b;
      FilterConcat(a[1..], b, keep);
    }
  }

  /** The projection of every row through f. */
  function Project<T, U>(s: seq<T>, f: T -> U): (r: seq<U>)
    ensures |r| == |s|
    ensures forall i :: 0 <= i < |s| ==> r[i] == f(s[i])
  {
    seq(|s|, i requires 0 <= i < |s| => f(s[i]))
  }

  /** `DISTINCT`: every row of s exactly once. Of repeated rows the last
      occurrence is kept. */
  function Distinct<T(==,!new)>(s: seq<T>): (r: seq<T>)
    ensures NoDuplicates(r)
    ensures forall x :: x in r <==> x in s
    ensures |r| <= |s|
  {
    if s == [] then []
    else
      var rest := Distinct(s[1..]);
      if s[0] in rest then rest else [s[0]] + rest
  }

  /** DISTINCT leaves a table without repeated rows unchanged; in particular
      it is idempotent. */
  lemma {:induction false} DistinctOfDistinctRows<T(!new)>(s: seq<T>)
    requires NoDuplicates(s)
    ensures Distinct(s) == s
  {
    if s != [] {
      assert NoDuplicates(s[1..]) by {
        forall i, j | 0 <= i < j < |s[1..]| ensures s[1..][i] != s[1..][j] {
          assert s[1..][i] == s[i + 1] && s[1..][j] == s[j + 1];
        }
      }
      DistinctOfDistinctRows(s[1..]);
      assert s[0] !in s[1..] by {
        forall k | 0 <= k < |s[1..]| ensures s[1..][k] != s[0] {
          assert s[1..][k] == s[k + 1];
        }
      }
      assert [s[0]] + s[1..] == s;
    }
  }

  /** `SELECT DISTINCT f(x) FROM s WHERE keep(x)`: exactly the projections of
      the kept rows, each once. */
  function SelectDistinct<T(!new), U(==,!new)>(s: seq<T>, keep: T -> bool, f: T -> U): (r: seq<U>)
    ensures NoDuplicates(r)
    ensures |r| <= |s|
    ensures forall y :: y in r ==> exists x :: x in s && keep(x) && f(x) == y
    ensures forall x :: x in s && keep(x) ==> f(x) in r
  {
    var kept := Filter(s, keep);
    var projected := Project(kept, f);
    assert forall y :: y in projected ==> exists i :: 0 <= i < |kept| && f(kept[i]) == y;
    assert forall x :: x in kept ==> f(x) in projected by {
      forall x | x in kept ensures f(x) in projected {
        var i :| 0 <= i < |kept| && kept[i] == x;
        assert projected[i] == f(x);
      }
    }
    Distinct(projected)
  }

  /** How often x occurs in s, counted from its first element. */
  lemma CountOfFirst<T>(s: seq<T>, x: T)
    requires s != []
    ensures multiset(s)[x] == multiset(s[1..])[x] + (if x == s[0] then 1 else 0)
  {
    assert s == [s[0]] + s[1..];
  }
}

=== FILE: song_data.dfy ===
/**
 * `process_song_data` (etl.py:24-66): the songs and artists dimension
 * tables, each a `SELECT DISTINCT` projection of the song records with the
 * rows whose key is NULL left out. The parquet writes are not modelled.
 */
module SongData {
  import opened Records
  import opened Relational

  /** The tables process_song_data writes. */
  datatype SongTables = SongTables(songs: seq<SongRow>, artists: seq<ArtistRow>)

  /** The select list of the songs query (etl.py:43-47). */
  function SongOf(c: CatalogRecord): SongRow {
    SongRow(c.songId, c.title, c.artistId, c.year, c.duration)
  }

  /** The select list of the artists query (etl.py:57-60). The source text
      lacks the comma after artists.artist_location at etl.py:59, so the
      query as written does not parse (a qualified name cannot be a column
      alias); the model selects the four columns the query evidently
      means. */
  function ArtistOf(c: CatalogRecord): ArtistRow {
    ArtistRow(c.artistId, c.artistName, c.artistLocation, c.artistLongitude)
  }

  predicate HasSongId(c: CatalogRecord) { c.songId.Some? }

  predicate HasArtistId(c: CatalogRecord) { c.artistId.Some? }

  /** The songs table: `SELECT DISTINCT song_id, title, artist_id, year,
      duration FROM songdata_table WHERE song_id IS NOT NULL`. The source
      spells the keyword DISINCT at etl.py:43; the model applies DISTINCT. */
  function SongsTable(catalog: seq<CatalogRecord>): (songs: seq<SongRow>)
    ensures NoDuplicates(songs)
    ensures forall row :: row in songs ==> row.songId.Some?
    ensures forall row :: row in songs ==> exists c :: c in catalog && c.songId.Some? && SongOf(c) == row
    ensures forall c :: c in catalog && c.songId.Some? ==> SongOf(c) in songs
  {
    SelectDistinct(catalog, HasSongId, SongOf)
  }

  /** The artists table: `SELECT DISTINCT artist_id, artist_name,
      artist_location, artist_longitude FROM songdata_table WHERE artist_id
      IS NOT NULL`. */
  function ArtistsTable(catalog: seq<CatalogRecord>): (artists: seq<ArtistRow>)
    ensures NoDuplicates(artists)
    ensures forall row :: row in artists ==> row.artistId.Some?
    ensures forall row :: row in artists ==> exists c :: c in catalog && c.artistId.Some? && ArtistOf(c) == row
    ensures forall c :: c in catalog && c.artistId.Some? ==> ArtistOf(c) in artists
  {
    SelectDistinct(catalog, HasArtistId, ArtistOf)
  }

  /** The tables process_song_data writes. Both come from the same song
      records, so every artist_id in the songs table is an artist_id of the
      artists table. */
  function ProcessSongData(catalog: seq<CatalogRecord>): (tables: SongTables)
    ensures NoDuplicates(tables.songs) && NoDuplicates(tables.artists)
    ensures forall row :: row in tables.songs && row.artistId.Some? ==>
              exists a :: a in tables.artists && a.artistId == row.artistId
  {
    SongsHaveArtists(catalog);
    SongTables(SongsTable(catalog), ArtistsTable(catalog))
  }

  lemma SongsHaveArtists(catalog: seq<CatalogRecord>)
    ensures forall row :: row in SongsTable(catalog) && row.artistId.Some? ==>
              exists a :: a in ArtistsTable(catalog) && a.artistId == row.artistId
  {
    forall row | row in SongsTable(catalog) && row.artistId.Some?
      ensures exists a :: a in ArtistsTable(catalog) && a.artistId == row.artistId
    {
      var c :| c in catalog && c.songId.Some? && SongOf(c) == row;
      assert ArtistOf(c) in ArtistsTable(catalog);
    }
  }

  /** DISTINCT removes only exact duplicates: two song records that share a
      song_id but differ in another selected column give two rows with the
      same key. */
  lemma SongsKeepRowsSharingKey(catalog: seq<CatalogRecord>, a: CatalogRecord, b: CatalogRecord)
    requires a in catalog && b in catalog
    requires a.songId.Some? && a.songId == b.songId && SongOf(a) != SongOf(b)
    ensures exists i, j ::
              0 <= i < j < |SongsTable(catalog)| &&
              SongsTable(catalog)[i].songId == SongsTable(catalog)[j].songId == a.songId
  {
    var songs := SongsTable(catalog);
    var i :| 0 <= i < |songs| && songs[i] == SongOf(a);
    var j :| 0 <= j < |songs| && songs[j] == SongOf(b);
    if i < j {
      assert songs[i].songId == songs[j].songId == a.songId;
    } else {
      assert songs[j].songId == songs[i].songId == a.songId;
    }
  }
}

=== FILE: timestamps.dfy ===
/**
 * Instants as whole seconds since the POSIX epoch, and their broken-down
 * UTC form. The job converts an event's millisecond timestamp with
 * `to_timestamp(ts/1000)` and reads hour, day, week, month and year off the
 * result (etl.py:117-124, etl.py:138-140); this module fixes the time zone
 * to UTC and the division to floor division.
 */
module Timestamps {
  import opened Calendar

  /** A broken-down UTC time: a date plus the time of day. */
  datatype CivilTime = CivilTime(date: Date, hour: int, minute: int, second: int)

  predicate ValidCivilTime(t: CivilTime) {
    ValidDate(t.date) && 0 <= t.hour < 24 && 0 <= t.minute < 60 && 0 <= t.second < 60
  }

  /** The reference definition: seconds since the epoch of a broken-down UTC
      time, the formula of POSIX.1-2017 Base Definitions section 4.16 with
      tm_year = year - 1900, tm_yday the 0-based day of the year, and floor
      division. */
  function SecondsSinceEpoch(t: CivilTime): int
    requires 1 <= t.date.month <= 12
  {
    var tmYear := t.date.year - 1900;
    var tmYday := DaysBeforeMonth(t.date.year, t.date.month) + t.date.day - 1;
    t.second + t.minute * 60 + t.hour * 3600 + tmYday * 86400 +
    (tmYear - 70) * 31536000 + ((tmYear - 69) / 4) * 86400 -
    ((tmYear - 1) / 100) * 86400 + ((tmYear + 299) / 400) * 86400
  }

  /** The POSIX formula is the day number times 86400 plus the time of day. */
  lemma SecondsSinceEpochByDays(t: CivilTime)
    requires 1 <= t.date.month <= 12
    ensures SecondsSinceEpoch(t) == DaysFromCivil(t.date) * 86400 + t.hour * 3600 + t.minute * 60 + t.second
  {
  }

  /** `ts/1000` on epoch milliseconds, rounded down to whole seconds. */
  function MillisToSeconds(ms: int): (s: int)
    ensures s * 1000 <= ms < s * 1000 + 1000
  {
    ms / 1000
  }

  /** The UTC broken-down time of an instant given in epoch seconds. */
  function UtcFromSeconds(secs: int): (t: CivilTime)
    ensures ValidCivilTime(t)
    ensures SecondsSinceEpoch(t) == secs
  {
    var days, sod := secs / 86400, secs % 86400;
    var hour, rest := sod / 3600, sod % 3600;
    var minute, second := rest / 60, rest % 60;
    assert secs == days * 86400 + sod && 0 <= sod < 86400;
    assert sod == hour * 3600 + rest && 0 <= hour < 24;
    assert rest == minute * 60 + second && 0 <= minute < 60;
    var t := CivilTime(CivilFromDays(days), hour, minute, second);
    SecondsSinceEpochByDays(t);
    t
  }

  /** UtcFromSeconds recovers every valid broken-down time from its seconds. */
  lemma UtcFromSecondsInverse(t: CivilTime)
    requires ValidCivilTime(t)
    ensures UtcFromSeconds(SecondsSinceEpoch(t)) == t
  {
    SecondsSinceEpochByDays(t);
    var secs := SecondsSinceEpoch(t);
    var sod := t.hour * 3600 + t.minute * 60 + t.second;
    assert secs == DaysFromCivil(t.date) * 86400 + sod && 0 <= sod < 86400;
    assert secs / 86400 == DaysFromCivil(t.date);
    assert secs % 86400 == sod;
    CivilFromDaysInverse(t.date);
  }

  /** Distinct broken-down times are distinct instants. */
  lemma SecondsSinceEpochInjective(a: CivilTime, b: CivilTime)
    requires ValidCivilTime(a) && ValidCivilTime(b)
    requires SecondsSinceEpoch(a) == SecondsSinceEpoch(b)
    ensures a == b
  {
    UtcFromSecondsInverse(a);
    UtcFromSecondsInverse(b);
  }

  /** Spark's `dayofweek`: 1 = Sunday .. 7 = Saturday. */
  function DayOfWeek(days: int): (w: int)
    ensures 1 <= w <= 7
    ensures (w == 1) <==> (IsoDayOfWeek(days) == 7)
    ensures IsoDayOfWeek(days) < 7 ==> w == IsoDayOfWeek(days) + 1
  {
    IsoDayOfWeek(days) % 7 + 1
  }

  /** The next day follows in Spark's weekly cycle: Sunday 1 after
      Saturday 7. */
  lemma DayOfWeekNext(days: int)
    ensures DayOfWeek(days + 1) == DayOfWeek(days) % 7 + 1
  {
    IsoDayOfWeekNext(days);
  }
}
